=== FILE: README.md ===
# Blog image uploads and post administration — a Dafny model

This project models the logic of a small Flask blog that decides something,
together with its browser-side script:

- **Upload gate** (`static/js/script.js`). This is the file picker's `change` handler. It checks a
  five-entry MIME allow-list first and a 16 MiB inclusive ceiling second. It also covers the
  preview label derived from the MIME type and the drop target that forwards dropped files
  to the same handler.
- **Submit validation** (`static/js/script.js`). Required inputs must be non-blank after
  JavaScript `trim`. A file input's first file must not exceed 16 MiB. Every field is
  visited, so each one is either flagged or cleared.
- **Character counter** (`static/js/script.js`). It shows the raw length, the word count of
  `text.trim().split(/\s+/)`, and a three-band colour.
- **Resize arithmetic** of `optimizeImage` (`static/js/script.js`), over `real`.
- **Upload names** (`app.py`). `allowed_file` splits at the last `.`, lower-cases and tests
  membership in `{png, jpg, jpeg, gif, webp}` (`config.py`). `save_image` stores the upload as
  `<32 hex digits>.<lower-cased extension>`.
- **Post helpers** (`models.py`). These are `has_image`, `get_image_url` and `delete_image`.
- **Admin routes** (`app.py`). `create`, `edit`, `delete` and `remove_image` are functions on a
  state made of a `map<int, Post>` (the database) and a `set<string>` (the upload folder).
  Each route is guarded by `@login_required` and the `is_admin` test.

Modules: `Wrappers` (Option), `Text` (white space, trim, ASCII case, splitting),
`UploadGate`, `FormValidation`, `CharCounter`, `Resize`, `UploadNames`,
`PostModel`, `PostRoutes`.

Three behaviours of the code are surprising, and the model keeps them as written:

- A rejected file does not return the picker to an empty state. The input is cleared, but
  the preview of an earlier accepted file stays on screen (`UploadGate.RejectionKeepsEarlierPreview`).
- The resize rule branches on `width > height`, not on which side exceeds its bound. With unequal
  bounds an image can keep a side above its bound (`Resize.UnequalBoundsMayOverflow`).
- In `edit`, the old image file is deleted before the new upload is checked. A refused upload,
  or one whose imaging steps fail, therefore leaves the post naming a file that no longer exists
  (`PostRoutes.EditFailedSaveLeavesDanglingName`, `PostRoutes.EditRefusedLeavesDanglingName`).
  The other routes keep the invariant "every truthy image name is a stored file, and no two
  posts share one" (`PostRoutes.Consistent`). `delete` and `remove_image` always keep it.
  `create` and a successful `edit` keep it provided the freshly drawn stored name is not
  already in the folder.

## Model

| member | source | states |
|---|---|---|
| Text.Trim | static/js/script.js:92 | The trimmed value is empty exactly when the whole value is white space (the ECMAScript WhiteSpace and LineTerminator set). Otherwise it starts and ends with a non-white-space character. |
| Text.JoinSplit | static/js/script.js:262 | `split` on one separator character loses nothing: joining the pieces with the separator gives back the string. |
| Text.Split | static/js/script.js:262 | JavaScript `split` on one character gives at least one piece. It gives two or more exactly when the separator occurs, and no piece contains the separator. |
| Text.SplitAtFirst | static/js/script.js:262 | For a separator-free head, the pieces of `head + sep + tail` are `head` followed by the pieces of `tail`. So `split('/')[1]` is the text after the first `/`, up to the next one. |
| Text.SplitAtLast | app.py:31 | `rsplit('.', 1)` yields nothing exactly when there is no `.`. Otherwise the front and back re-join to the name, and the back contains no `.`. |
| Text.SplitAtLastUnique | app.py:31 | Any way of writing a name as `front . back` with a dot-free `back` is the split `rsplit` finds. |
| Text.ToLowerIdempotent | app.py:36 | Lower-casing an already lower-cased extension changes nothing. |
| UploadGate.Check | static/js/script.js:222-236 | A type outside the allow-list is rejected as unsupported. An allowed type is accepted iff its size is at most 16 MiB, and rejected as too large exactly when it is above that, whatever the amount. |
| UploadGate.TypeCheckedBeforeSize | static/js/script.js:223-228 | An unsupported type is reported as such whatever its size: the type check runs first. |
| UploadGate.SizeBoundary | static/js/script.js:230-236 | The ceiling is inclusive: exactly 16×1024×1024 bytes is accepted, and one byte more is rejected as too large. |
| UploadGate.AcceptedDownwardClosed | static/js/script.js:222-236 | A smaller file of an accepted type is accepted too, whatever its name. |
| UploadGate.AllowedTypeShape | static/js/script.js:223 | Every allowed type has the form `image/<sub>` with a slash-free `sub`. |
| UploadGate.TypeLabel | static/js/script.js:262 | The label exists exactly when the type contains a `/`. Without one the browser raises a TypeError. |
| UploadGate.TypeLabelOfSubtype | static/js/script.js:262 | For a type `top/sub` the label is `sub` in upper case. |
| UploadGate.AcceptedTypeLabel | static/js/script.js:262 | An accepted file's label is its subtype (the text after `image/`) in upper case. |
| UploadGate.WebpLabel | static/js/script.js:262 | `image/webp` is labelled `WEBP`. |
| UploadGate.OnChange | static/js/script.js:219-268 | No file means no change and no toast. A rejected first file empties the input and keeps the preview. An unsupported type raises the error toast asking for a valid image file; a supported type over 16 MiB raises the error toast about the 16MB limit. An accepted one keeps the files and shows its name, its size and its subtype in upper case, with a success toast. |
| UploadGate.OnDrop | static/js/script.js:287-297 | An empty drop does nothing. Otherwise the first dropped file decides: if rejected, the input is emptied, with the type toast for an unsupported type and the size toast for an oversized file; if accepted, the input holds the dropped files and shows that file's preview. The outcome is the same as choosing the same files in the picker. |
| UploadGate.OnlyFirstFileMatters | static/js/script.js:292-295 | When several files are dropped, the preview and the toast are those the first file alone produces. |
| UploadGate.RejectionKeepsEarlierPreview | static/js/script.js:224-236 | A rejected file empties the input but leaves an earlier preview on screen. |
| FormValidation.OnSubmit | static/js/script.js:87-121 | Submit goes through iff no required value is white-space only and no file input's first file exceeds 16 MiB. Every required field is flagged or cleared, each file input is untouched, cleared or flagged, and a blocked submit raises one error toast. |
| FormValidation.MarkRequired | static/js/script.js:88-98 | Every required value gets exactly one mark: flagged with the required message exactly when it is white space only, cleared otherwise. The first loop leaves the submit allowed exactly when no required value is blank. |
| FormValidation.RequiredMark | static/js/script.js:92-96 | A required value is flagged exactly when it is white space only (empty included); any other value is cleared. |
| FormValidation.RequiredMarksMeaning | static/js/script.js:88-98 | The marks flag exactly the blank values, so no flag was raised exactly when no required value is blank. |
| FormValidation.MarkFiles | static/js/script.js:100-114 | A file input with no file is left alone, one whose first file exceeds 16 MiB is flagged with the size message, and any other is cleared. The loop leaves the submit allowed exactly when no first file is over the ceiling. |
| FormValidation.OneBlankFieldBlocks | static/js/script.js:91-98 | One blank required field blocks the submit whatever the other fields hold. |
| FormValidation.AcceptedFileNeverOversized | static/js/script.js:105-107 | A file the picker accepted never trips the submit-time size check: both use the same inclusive ceiling. |
| CharCounter.ColourForLength | static/js/script.js:200-204 | Red exactly below 50 characters, amber exactly for 50 to 99, green from 100 on. |
| CharCounter.ColourMonotone | static/js/script.js:200-204 | A longer text is never shown in a lower band than a shorter one. |
| CharCounter.SplitWs | static/js/script.js:188 | `split(/\s+/)` gives at least one piece, and no piece contains white space. |
| CharCounter.Count | static/js/script.js:186-191 | The character count is the raw length in UTF-16 code units, between the number of characters and twice it. The word count is zero exactly for a white-space-only text and equals the number of word starts. The colour is the band of that code-unit length. |
| CharCounter.Utf16Length | static/js/script.js:187 | `value.length` counts UTF-16 code units: at least one and at most two per character. |
| CharCounter.Utf16LengthOfBmp | static/js/script.js:187 | A text of Basic Multilingual Plane characters has as many code units as characters. |
| CharCounter.Utf16LengthOfAstral | static/js/script.js:187 | A text of characters outside the Basic Multilingual Plane has twice as many code units as characters. |
| CharCounter.EmojiCountTwice | static/js/script.js:187-191 | Forty-nine copies of U+1F600 are shown as 98 characters, in amber. |
| CharCounter.WordCount | static/js/script.js:188 | The displayed word count equals an independent scanner's count of maximal non-white-space runs, and it is zero exactly for a white-space-only text. |
| CharCounter.SplitWsCountsWordStarts | static/js/script.js:188 | The non-empty pieces of the split correspond one-to-one to word starts. |
| CharCounter.SplitWsPiecesNonEmpty | static/js/script.js:188 | A text that starts and ends with non-white-space splits into non-empty pieces only, so counting pieces counts words. |
| CharCounter.TrimKeepsWordStarts | static/js/script.js:188 | Trimming does not change the number of words. |
| Resize.Fit | static/js/script.js:498-512 | The aspect ratio is preserved, and neither side grows or becomes negative. A landscape image over `maxWidth` gets exactly `maxWidth`. A portrait or square image over `maxHeight` gets exactly `maxHeight`. A landscape image within `maxWidth` is unchanged whatever its height. A portrait or square image within `maxHeight` is unchanged whatever its width. |
| Resize.Scale | static/js/script.js:504 | Scaling by `bound / big` with `bound < big` shrinks the side, keeps the proportion, and brings any side no longer than `big` within `bound`. |
| Resize.FitsSquareBox | static/js/script.js:502-512 | With equal bounds, as with the defaults, the result fits the box. |
| Resize.UnequalBoundsMayOverflow | static/js/script.js:502-512 | With bounds 1200×800, a 1000×900 image is left unchanged and stays taller than 800. |
| Resize.DefaultExamples | static/js/script.js:491-512 | With the default 1200×1200 bounds: 2000×1000 gives 1200×600, 1000×2000 gives 600×1200, and 100×100 is unchanged. |
| UploadNames.AllowedFile | app.py:29-31 | A name is allowed exactly when some position holds a `.` with no `.` after it, and the text after it, lower-cased, is png, jpg, jpeg, gif or webp. An allowed name contains a `.`. |
| UploadNames.StoredName | app.py:36-37 | The stored name is the stem, a `.`, and the extension; it begins with the stem. With a dot-free stem, splitting it at the last `.` gives back the stem and the lower-cased extension. |
| UploadNames.NoDotRefused | app.py:30 | A name without a `.` is refused. |
| UploadNames.AllowedFileIff | app.py:29-31 | `stem.ext` with a dot-free `ext` is allowed iff `ext` lower-cased is png, jpg, jpeg, gif or webp, whatever the stem holds. |
| UploadNames.InnerExtensionIgnored | app.py:31 | `a.png.exe` is refused: only the last segment counts. |
| UploadNames.TrailingDotRefused | app.py:31 | `photo.` is refused: its last segment is empty. |
| UploadNames.UpperCaseLastExtensionAllowed | app.py:31 | `a.exe.PNG` is allowed: the last segment is compared in lower case. |
| UploadNames.TextFileRefused | app.py:31 | `notes.txt` is refused. |
| UploadNames.SaveImage | app.py:33-55 | An absent or empty upload, or a refused name, gives `None` and leaves the folder unchanged. An allowed upload is stored exactly when its imaging steps (open, thumbnail, conversion to RGB, JPEG save) all succeed. It is then stored under the stem plus the lower-cased extension, which adds exactly that name to the folder, and that name itself passes `allowed_file`. If an imaging step fails, the error propagates and nothing is stored. |
| UploadNames.StoredNameShape | app.py:36-37 | The stored name has exactly one `.`, which separates the hex stem from the lower-cased extension, and the name passes `allowed_file`. |
| UploadNames.SaveRefusedStoresNothing | app.py:55 | A missing or refused upload returns `None` and stores nothing. |
| PostModel.HasImage | models.py:34-35 | True exactly when the column is not NULL, the empty name included: a truthy name or the empty string. |
| PostModel.ImageUrl | models.py:37-40 | There is no URL exactly when the filename is NULL or empty. Otherwise the URL is `/static/uploads/` followed by the filename. |
| PostModel.HasImageVersusUrl | models.py:34-40 | `has_image` and `get_image_url` disagree exactly on the empty filename. There the post "has an image" but no URL. |
| PostModel.ImageUrlInjective | models.py:39 | The URL determines the filename. |
| PostModel.DeleteImage | models.py:42-46 | The folder only shrinks, and by at most the post's truthy filename, which is then gone. A NULL or empty name removes nothing. The post is only read, so its filename is never modified. |
| PostModel.DeleteImageIdempotent | models.py:42-46 | Deleting twice is the same as deleting once. With no truthy name, nothing happens. |
| PostRoutes.Gate | app.py:126-130 | Only a logged-in administrator passes. An anonymous user is redirected to the login page with the login-required message. A logged-in non-administrator is redirected to the index with the route's denial message as an error flash. |
| PostRoutes.Create | app.py:125-153 | A non-admin request gets the gate's redirect, and an admin without a validated form gets the empty create page; both change nothing. No existing post changes. For a validated admin request the new post exists exactly when there is no upload, or the upload has an allowed name and its imaging steps succeed, and then the route redirects with success. The post carries the form's fields, the timestamp, and an image iff an upload was present. That image is recorded under the name `save_image` returns: the hex stem, a `.` and the lower-cased extension, not the client's filename. It is an allowed name and the only file added. A refused name re-renders the create page with the invalid-image flash. An allowed name whose imaging fails is a server error. |
| PostRoutes.Edit | app.py:155-189 | A non-admin request, a missing post or an unvalidated form changes nothing. A non-admin gets the gate's redirect with the edit denial, a missing post gives 404, and an unvalidated form re-renders the edit page. Otherwise the outcome is that of the submitted edit. |
| PostRoutes.SubmitEdit | app.py:165-183 | Only the edited post changes. On success it carries the form's title, content and author and keeps its date. Without an upload the edit always succeeds, redirecting to the post with the update flash, and its image and the folder are unchanged. With an upload the outcome is that of the image replacement. |
| PostRoutes.ReplaceImage | app.py:167-176 | The old file is removed in every outcome. The edit succeeds exactly when the upload's name is allowed and its imaging steps succeed. The post then names the new file under the name `save_image` returns (the hex stem, a `.` and the lower-cased extension). That name is allowed and is the only file added, and the route redirects with the update flash. A refused name re-renders the edit page with the invalid-image flash. An allowed name whose imaging fails is a server error. In both failures the posts are unchanged but the old file is already gone. |
| PostRoutes.Delete | app.py:191-204 | For an admin and an existing post: exactly that post is removed, the others are unchanged, its file is removed from the folder, and the route redirects to the index with the deletion flash. Otherwise nothing changes. A non-admin gets the gate's redirect with the delete denial, and a missing post gives 404. |
| PostRoutes.RemoveImage | app.py:206-218 | For an admin and an existing post: its filename becomes NULL, all its other fields and all other posts are unchanged, its file is removed, and the route redirects to the edit page with the removal flash. Otherwise nothing changes. A non-admin gets the gate's redirect with the modify denial, and a missing post gives 404. |
| PostRoutes.DeleteKeepsConsistent | app.py:198-202 | Deleting keeps every remaining image name backed by a stored file. |
| PostRoutes.RemoveImageKeepsConsistent | app.py:213-216 | Removing an image keeps the blog consistent. |
| PostRoutes.CreateKeepsConsistent | app.py:135-149 | Creating keeps the blog consistent, provided the drawn name is not already stored. |
| PostRoutes.EditKeepsConsistent | app.py:165-181 | An edit that does not stop on a bad upload keeps the blog consistent. |
| PostRoutes.EditFailedSaveLeavesDanglingName | app.py:167-176 | For any admin edit of a post that names a file, with an upload whose name is allowed but whose imaging steps fail: the request ends in a server error, the posts are unchanged, the old file is no longer stored, and the blog is inconsistent, whatever state it started in. |
| PostRoutes.EditRefusedLeavesDanglingName | app.py:167-176 | For any admin edit of a post that names a file, with a refused upload: the edit page is re-rendered with the invalid-image flash, the posts are unchanged, the old file is no longer stored, and the blog is inconsistent. |

## Left out

- DOM styling and effects are not modelled: auto-resizing textareas, animations, hover effects, flash and toast timers, loading buttons, smooth scrolling, lazy loading and the password toggle. They are UI side effects with no decision logic.
- Keyboard shortcuts and `confirm()` dialogs are not modelled. They depend on browser navigation and history.
- `FileReader`, `Image`, canvas and `toBlob` are not modelled. The preview built in the reader's `onload` is applied at once. The source has no freshness check, so overlapping loads could finish out of order; that interleaving is not modelled.
- The `toFixed(2)` megabyte label and `formatFileSize` are not modelled. They are floating-point rounding and a logarithm; the preview keeps the size in bytes.
- Resize.Fit: models JavaScript numbers as exact reals. It ignores the canvas's truncation to whole pixels. It also requires positive bounds: a non-positive bound would make the browser divide by zero or produce negative sizes.
- Text.ToLower: maps ASCII letters only, unlike Python's full Unicode `lower()`. For `allowed_file` this does not change the verdict, because no non-ASCII character lower-cases to a letter of png, jpg, jpeg, gif or webp.
- Text.ToUpper: maps ASCII letters only, unlike JavaScript's full Unicode `toUpperCase()`. The labels of accepted files are ASCII, so they are exact.
- Text.IsWs: is written out from the ECMAScript WhiteSpace and LineTerminator productions. It assumes the Unicode space-separator category at its current version.
- FormValidation.OnSubmit: gives each field its own mark, which is how the errors look when every field has its own parent element. The page does not work that way. `clearFieldError` (static/js/script.js:141-147) removes the first `.error` element under the input's parent, whichever field it belongs to, and `showFieldError` calls it first (line 125). So with two fields in one parent, two blank required fields show a single message, and a valid field clears its sibling's message. A required `input[type=file]` matches both selectors (lines 88 and 101). It is therefore visited twice, and the file loop's outcome is the one left on screen. Neither effect is modelled.
- The `required` values in `FormValidation.OnSubmit` are plain strings. For a required file input the browser's value string is taken as given.
- Flask routing and template rendering, Flask-Login sessions, SQLAlchemy queries and commits, and the startup `drop_all`/`create_all` are not modelled. They are abstracted to the map/set state and a `Response` value. The `index`, `post`, `login`, `register` and `logout` routes are not modelled.
- forms.py is not part of this model. WTForms validation is one `submitted` flag. Its `FileAllowed` check (forms.py:32-34) accepts a name exactly when its lower-cased form ends in `.` plus an allowed extension, which is the same test `allowed_file` makes. After a validated form, `save_image` therefore never returns `None`, and the "Invalid image file" path cannot be reached. `PostRoutes.EditRefusedLeavesDanglingName` shows that path with a name validation would refuse. After validation, the old file is lost when an imaging step of `save_image` fails (`PostRoutes.EditFailedSaveLeavesDanglingName`). Unreadable bytes under an allowed name are one way. A readable, allowed image is another when the JPEG writer refuses its mode: a PNG in `LA` mode (grey with alpha) is neither `RGBA` nor `P`, so it is not converted (app.py:48-49) and the JPEG save raises (app.py:52).
- `MAX_CONTENT_LENGTH` is not modelled. Flask enforces it lazily, when `PostForm()` first reads the request body (app.py:132 and app.py:163). That happens after the admin check and, in `edit`, after the post lookup, so an oversized body still gets the redirect or the 404 first.
- `uuid4().hex` is a parameter constrained to 32 lower-case hex digits. The database's new post id is a parameter required to be unused, and the post's date is a clock-reading parameter.
- Pillow's open, thumbnail, convert and save steps are not modelled. Whether they all succeed on the upload's bytes is one flag on the upload. A failure at any of them is a `ServerError` response without a commit. The stored bytes are always JPEG whatever the extension; file contents are not modelled.
- `delete_image` joins a path relative to the working directory, while `save_image` writes under the absolute `UPLOAD_FOLDER`. The model assumes the two name the same folder, and it ignores the gap between the existence check and the removal.
- Password hashing, the `User` model and the admin bootstrap are not modelled.

=== FILE: char_counter.dfy ===
/** The live counter under the post's content textarea: the number of
    characters, the number of words, and the colour the character count is
    shown in. */
module CharCounter {

  import opened Text

  datatype Colour = Red | Amber | Green

  /** Order of the bands, from "too short" to "long enough". */
  function Rank(c: Colour): nat {
    match c
    case Red => 0
    case Amber => 1
    case Green => 2
  }

  /** `getColorForLength`: red below 50, amber from 50 to 99, green from 100 on. */
  function ColourForLength(length: nat): (c: Colour)
    ensures c == Red <==> length < 50
    ensures c == Amber <==> 50 <= length < 100
    ensures c == Green <==> 100 <= length
  {
    if length < 50 then Red else if length < 100 then Amber else Green
  }

  /** A longer text is never shown in a "worse" colour. */
  lemma ColourMonotone(m: nat, n: nat)
    requires m <= n
    ensures Rank(ColourForLength(m)) <= Rank(ColourForLength(n))
  {
  }

  /** JavaScript `s.split(/\s+/)`: the pieces between maximal runs of white
      space. A leading run yields an empty first piece, a trailing run an
      empty last piece. */
  function SplitWs(s: string): (parts: seq<string>)
    ensures |parts| >= 1
    ensures forall k :: 0 <= k < |parts| ==> !HasWs(parts[k])
    decreases |s|
  {
    if s == [] then [""]
    else if IsWs(s[0]) then
      var rest := TrimStart(s);
      [""] + SplitWs(rest)
    else
      var p := SplitWs(s[1..]);
      assert !HasWs([s[0]] + p[0]) by {
        assert forall i :: 1 <= i < |[s[0]] + p[0]| ==> ([s[0]] + p[0])[i] == p[0][i - 1];
      }
      [[s[0]] + p[0]] + p[1..]
  }

  predicate HasWs(s: string) {
    exists i :: 0 <= i < |s| && IsWs(s[i])
  }

  /** The word count the counter shows: 0 for a blank text, otherwise the
      number of pieces of the trimmed text split at white-space runs. It
      equals the independent scanner's count of word starts in the raw text. */
  function WordCount(text: string): (n: nat)
    ensures n == WordStarts(text, true)
    ensures n == 0 <==> AllWs(text)
  {
    var t := Trim(text);
    var n := if t == [] then 0 else |SplitWs(t)|;
    TrimKeepsWordStarts(text);
    if t == [] then
      WordStartsAllWs(text, true);
      n
    else
      SplitWsPiecesNonEmpty(t);
      NonEmptyAll(SplitWs(t));
      SplitWsCountsWordStarts(t);
      n
  }

  /** `value.length`: the number of UTF-16 code units, so a character outside
      the Basic Multilingual Plane (a surrogate pair) counts twice. */
  function Utf16Length(s: string): (n: nat)
    ensures |s| <= n <= 2 * |s|
  {
    if s == [] then 0 else (if s[0] as int > 0xFFFF then 2 else 1) + Utf16Length(s[1..])
  }

  /** A text of Basic Multilingual Plane characters has one code unit per character. */
  lemma {:induction false} Utf16LengthOfBmp(s: string)
    requires forall i :: 0 <= i < |s| ==> s[i] as int <= 0xFFFF
    ensures Utf16Length(s) == |s|
  {
    if s != [] {
      Utf16LengthOfBmp(s[1..]);
    }
  }

  /** `n` characters outside the Basic Multilingual Plane count `2 * n`. */
  lemma {:induction false} Utf16LengthOfAstral(s: string)
    requires forall i :: 0 <= i < |s| ==> s[i] as int > 0xFFFF
    ensures Utf16Length(s) == 2 * |s|
  {
    if s != [] {
      Utf16LengthOfAstral(s[1..]);
    }
  }

  /** What the counter displays for the textarea's current value. */
  datatype Reading = Reading(characters: nat, words: nat, colour: Colour)

  /** `updateCounter`: the character count is the raw length in UTF-16 code
      units, untrimmed, and the colour is that length's band. */
  function Count(text: string): (r: Reading)
    ensures r.characters == Utf16Length(text)
    ensures |text| <= r.characters <= 2 * |text|
    ensures r.words == 0 <==> AllWs(text)
    ensures r.words == WordStarts(text, true)
    ensures r.colour == ColourForLength(Utf16Length(text))
  {
    var length := Utf16Length(text);
    Reading(length, WordCount(text), ColourForLength(length))
  }

  /** Forty-nine emoji are 98 code units, shown in amber, not 49 in red. */
  lemma EmojiCountTwice()
    ensures var text := seq(49, _ => '\U{1F600}');
            Count(text).characters == 98 && Count(text).colour == Amber
  {
    var text := seq(49, _ => '\U{1F600}');
    Utf16LengthOfAstral(text);
  }

  // -------------------------------------------------- reference definition

  /** Independent statement of "number of words": scan the text once and count
      the positions holding a non-white-space character that is the first
      character or follows white space. `afterWs` says whether the previous
      character was white space (true at the start). */
  function WordStarts(s: string, afterWs: bool): nat {
    if s == [] then 0
    else (if afterWs && !IsWs(s[0]) then 1 else 0) + WordStarts(s[1..], IsWs(s[0]))
  }

  /** Number of non-empty pieces in a list. */
  function NonEmpty(parts: seq<string>): nat {
    if parts == [] then 0 else (if parts[0] != [] then 1 else 0) + NonEmpty(parts[1..])
  }

  lemma {:induction false} NonEmptyAll(parts: seq<string>)
    requires forall k :: 0 <= k < |parts| ==> parts[k] != []
    ensures NonEmpty(parts) == |parts|
  {
    if parts != [] {
      NonEmptyAll(parts[1..]);
    }
  }

  lemma {:induction false} WordStartsAllWs(s: string, afterWs: bool)
    requires AllWs(s)
    ensures WordStarts(s, afterWs) == 0
  {
    if s != [] {
      WordStartsAllWs(s[1..], IsWs(s[0]));
    }
  }

  /** Leading white space contributes no word start. */
  lemma {:induction false} WordStartsTrimStart(s: string)
    ensures WordStarts(TrimStart(s), true) == WordStarts(s, true)
    decreases |s|
  {
    if s != [] && IsWs(s[0]) {
      WordStartsTrimStart(s[1..]);
    }
  }

  /** Trailing white space contributes no word start. */
  lemma {:induction false} WordStartsAppendWs(u: string, w: string, afterWs: bool)
    requires AllWs(w)
    ensures WordStarts(u + w, afterWs) == WordStarts(u, afterWs)
    decreases |u|
  {
    if u == [] {
      assert u + w == w;
      WordStartsAllWs(w, afterWs);
    } else {
      assert (u + w)[1..] == u[1..] + w;
      WordStartsAppendWs(u[1..], w, IsWs(u[0]));
    }
  }

  /** The split pieces and the scanner agree: after white space (or at the
      start) every non-empty piece is one word start; in the middle of a word
      the first piece continues that word and is not counted. */
  lemma {:induction false} SplitWsCountsWordStarts(t: string)
    ensures WordStarts(t, true) == NonEmpty(SplitWs(t))
    ensures WordStarts(t, false) == NonEmpty(SplitWs(t)[1..])
    decreases |t|
  {
    if t == [] {
    } else if IsWs(t[0]) {
      var rest := TrimStart(t);
      SplitWsCountsWordStarts(rest);
      WordStartsTrimStart(t);
      WordStartsTrimStart(t[1..]);
      assert TrimStart(t) == TrimStart(t[1..]);
      assert SplitWs(t) == [""] + SplitWs(rest);
      assert SplitWs(t)[1..] == SplitWs(rest);
    } else {
      var p := SplitWs(t[1..]);
      SplitWsCountsWordStarts(t[1..]);
      assert SplitWs(t) == [[t[0]] + p[0]] + p[1..];
      assert SplitWs(t)[1..] == p[1..];
    }
  }

  /** A text that starts and ends with a non-white-space character splits into
      non-empty pieces only. */
  lemma {:induction false} SplitWsPiecesNonEmpty(t: string)
    requires t != [] && !IsWs(t[0]) && !IsWs(t[|t| - 1])
    ensures forall k :: 0 <= k < |SplitWs(t)| ==> SplitWs(t)[k] != []
    decreases |t|
  {
    var t' := t[1..];
    var p := SplitWs(t');
    assert SplitWs(t) == [[t[0]] + p[0]] + p[1..];
    if t' == [] {
      assert p == [""];
    } else if !IsWs(t'[0]) {
      SplitWsPiecesNonEmpty(t');
    } else {
      var d := TrimStart(t');
      TrimStartKeepsLast(t');
      SplitWsPiecesNonEmpty(d);
      assert p == [""] + SplitWs(d);
      assert p[1..] == SplitWs(d);
    }
  }

  /** Trimming does not change the number of word starts. */
  lemma TrimKeepsWordStarts(text: string)
    ensures WordStarts(Trim(text), true) == WordStarts(text, true)
  {
    var s := TrimStart(text);
    var t := TrimEnd(s);
    assert Trim(text) == t;
    TrimEndSplit(s);
    WordStartsAppendWs(t, s[|t|..], true);
    WordStartsTrimStart(text);
  }
}

=== FILE: form_validation.dfy ===
/** The submit check every form on the page runs in the browser before the
    request is sent: required inputs must not be blank after trimming, and a
    file input's first file must not exceed 16 MiB. Every field is visited,
    so each one ends up either flagged or cleared. */
module FormValidation {

  import opened Wrappers
  import opened Text
  import opened UploadGate

  const RequiredMessage: string := "This field is required"
  const FileSizeMessage: string := "File size must be less than 16MB"
  const FixErrorsMessage: string := "Please fix the errors in the form."

  /** What the check does to a field's error display: nothing, clear it, or
      show a message under the field. */
  datatype Mark = Untouched | Cleared | Flagged(message: string)

  /** A file input is over the limit when its first file is larger than the ceiling. */
  predicate Oversized(files: seq<SelectedFile>) {
    |files| > 0 && files[0].size > MaxUploadBytes
  }

  /** Reference statement of when a submit goes through: no required value
      consists of white space only, and no file input is over the limit. */
  predicate SubmitAllowed(required: seq<string>, fileInputs: seq<seq<SelectedFile>>) {
    && (forall i :: 0 <= i < |required| ==> !AllWs(required[i]))
    && (forall j :: 0 <= j < |fileInputs| ==> !Oversized(fileInputs[j]))
  }

  /** The `submit` listener. `required` are the values of the form's required
      inputs and textareas, `fileInputs` the file lists of its file inputs.
      `allow == false` stands for `preventDefault()` on the event. */
  method OnSubmit(required: seq<string>, fileInputs: seq<seq<SelectedFile>>)
    returns (allow: bool, requiredMarks: seq<Mark>, fileMarks: seq<Mark>, notice: Option<Notice>)
    ensures allow <==> SubmitAllowed(required, fileInputs)
    ensures |requiredMarks| == |required|
    ensures forall i :: 0 <= i < |required| ==>
              requiredMarks[i] == (if AllWs(required[i]) then Flagged(RequiredMessage) else Cleared)
    ensures |fileMarks| == |fileInputs|
    ensures forall j :: 0 <= j < |fileInputs| ==>
              fileMarks[j] == (if |fileInputs[j]| == 0 then Untouched
                               else if Oversized(fileInputs[j]) then Flagged(FileSizeMessage)
                               else Cleared)
    ensures notice == (if allow then None else Some(Notice(FixErrorsMessage, Error)))
  {
    var requiredOk, filesOk;
    requiredOk, requiredMarks := MarkRequired(required);
    filesOk, fileMarks := MarkFiles(fileInputs);
    allow := requiredOk && filesOk;
    notice := if allow then None else Some(Notice(FixErrorsMessage, Error));
  }

  /** The first loop of the listener: every required value that is blank
      after `trim` is flagged, every other one cleared, and the submit stays
      allowed exactly when no required value is blank. */
  method MarkRequired(required: seq<string>) returns (ok: bool, marks: seq<Mark>)
    ensures |marks| == |required|
    ensures forall i :: 0 <= i < |required| ==>
              marks[i] == (if AllWs(required[i]) then Flagged(RequiredMessage) else Cleared)
    ensures ok <==> forall i :: 0 <= i < |required| ==> !AllWs(required[i])
  {
    marks := seq(|required|, i requires 0 <= i < |required| => RequiredMark(required[i]));
    ok := Flagged(RequiredMessage) !in marks;
    RequiredMarksMeaning(required, marks);
  }

  /** One step of the first loop: `!input.value.trim()` flags the field. */
  function RequiredMark(value: string): (m: Mark)
    ensures m == (if AllWs(value) then Flagged(RequiredMessage) else Cleared)
  {
    if Trim(value) == [] then Flagged(RequiredMessage) else Cleared
  }

  /** The marks of the first loop flag exactly the blank values, so no flag
      was raised exactly when no required value is blank. */
  lemma RequiredMarksMeaning(required: seq<string>, marks: seq<Mark>)
    requires |marks| == |required|
    requires forall i :: 0 <= i < |required| ==> marks[i] == RequiredMark(required[i])
    ensures forall i :: 0 <= i < |required| ==>
              marks[i] == (if AllWs(required[i]) then Flagged(RequiredMessage) else Cleared)
    ensures Flagged(RequiredMessage) !in marks <==> forall i :: 0 <= i < |required| ==> !AllWs(required[i])
  {
    if Flagged(RequiredMessage) in marks {
      var k :| 0 <= k < |marks| && marks[k] == Flagged(RequiredMessage);
      assert AllWs(required[k]);
    } else {
      forall k | 0 <= k < |required|
        ensures !AllWs(required[k])
      {
        assert marks[k] in marks;
      }
    }
  }

  /** The second loop: a file input holding a first file over the ceiling is
      flagged, one holding an acceptable first file is cleared, and an empty
      one is left alone. */
  method MarkFiles(fileInputs: seq<seq<SelectedFile>>) returns (ok: bool, marks: seq<Mark>)
    ensures ok <==> forall j :: 0 <= j < |fileInputs| ==> !Oversized(fileInputs[j])
    ensures |marks| == |fileInputs|
    ensures forall j :: 0 <= j < |fileInputs| ==>
              marks[j] == (if |fileInputs[j]| == 0 then Untouched
                           else if Oversized(fileInputs[j]) then Flagged(FileSizeMessage)
                           else Cleared)
  {
    ok := true;
    marks := [];
    var j := 0;
    while j < |fileInputs|
      invariant 0 <= j <= |fileInputs|
      invariant |marks| == j
      invariant forall k :: 0 <= k < j ==>
                  marks[k] == (if |fileInputs[k]| == 0 then Untouched
                               else if Oversized(fileInputs[k]) then Flagged(FileSizeMessage)
                               else Cleared)
      invariant ok <==> forall k :: 0 <= k < j ==> !Oversized(fileInputs[k])
    {
      var files := fileInputs[j];
      if |files| > 0 {
        if files[0].size > MaxUploadBytes {
          ok := false;
          marks := marks + [Flagged(FileSizeMessage)];
        } else {
          marks := marks + [Cleared];
        }
      } else {
        marks := marks + [Untouched];
      }
      j := j + 1;
    }
  }

  /** One blank required field is enough to block the submit, whatever the other fields hold. */
  lemma OneBlankFieldBlocks(required: seq<string>, fileInputs: seq<seq<SelectedFile>>, i: nat)
    requires i < |required| && AllWs(required[i])
    ensures !SubmitAllowed(required, fileInputs)
  {
  }

  /** The submit check and the picker agree on the ceiling: a file the picker
      accepted never blocks a submit. */
  lemma AcceptedFileNeverOversized(f: SelectedFile, rest: seq<SelectedFile>)
    requires Check(f) == Accepted
    ensures !Oversized([f] + rest)
  {
  }
}

=== FILE: post_model.dfy ===
/** The blog post record and its image helpers. The upload folder is
    modelled as the set of file names it holds. */
module PostModel {

  import opened Wrappers

  /** URL prefix under which uploaded images are served. */
  const UploadsUrl: string := "/static/uploads/"

  /** A post row: title, content, author, optional image file name, and the
      creation timestamp (an opaque clock reading). */
  datatype Post = Post(title: string, content: string, author: string,
                       imageFilename: Option<string>, posted: int)

  /** `has_image`: the column is not NULL. Unlike Python truthiness it
      counts the empty name as an image. */
  predicate HasImage(p: Post): (r: bool)
    ensures r <==> NamesFile(p) || p.imageFilename == Some([])
  {
    p.imageFilename.Some?
  }

  /** Python truthiness of the column: present and not the empty string. */
  predicate NamesFile(p: Post) {
    p.imageFilename.Some? && p.imageFilename.value != []
  }

  /** `get_image_url`. */
  function ImageUrl(p: Post): (r: Option<string>)
    ensures r.None? <==> p.imageFilename == None || p.imageFilename == Some([])
    ensures r.Some? ==> |r.value| > |UploadsUrl|
                        && r.value[..|UploadsUrl|] == UploadsUrl
                        && r.value[|UploadsUrl|..] == p.imageFilename.value
  {
    if NamesFile(p) then Some(UploadsUrl + p.imageFilename.value) else None
  }

  /** The two helpers disagree exactly on the empty file name: then the post
      "has an image" but no URL. */
  lemma HasImageVersusUrl(p: Post)
    ensures HasImage(p) && ImageUrl(p).None? <==> p.imageFilename == Some([])
    ensures ImageUrl(p).Some? ==> HasImage(p)
  {
  }

  /** Distinct file names give distinct URLs: the URL determines the file. */
  lemma ImageUrlInjective(p: Post, q: Post)
    requires ImageUrl(p).Some? && ImageUrl(p) == ImageUrl(q)
    ensures p.imageFilename == q.imageFilename
  {
  }

  /** `delete_image`: removes the named file from the folder if the name is
      truthy; a missing file is skipped. The post itself is not touched. */
  function DeleteImage(p: Post, files: set<string>): (r: set<string>)
    ensures r <= files
    ensures forall f :: f in files && f !in r ==> NamesFile(p) && f == p.imageFilename.value
    ensures NamesFile(p) ==> p.imageFilename.value !in r
  {
    if NamesFile(p) then files - {p.imageFilename.value} else files
  }

  /** Deleting twice is deleting once, and with no truthy name nothing happens. */
  lemma DeleteImageIdempotent(p: Post, files: set<string>)
    ensures DeleteImage(p, DeleteImage(p, files)) == DeleteImage(p, files)
    ensures !NamesFile(p) ==> DeleteImage(p, files) == files
  {
  }
}

=== FILE: post_routes.dfy ===
/** The four admin-only routes that change posts — create, edit, delete and
    remove-image — as functions from a blog state to a new state and a
    response. The database is a map from post id to post, the upload folder a
    set of file names. Form validation is abstracted to one flag. */
module PostRoutes {

  import opened Wrappers
  import opened UploadNames
  import opened PostModel

  /** The current user: not logged in, or logged in with or without the admin flag. */
  datatype Viewer = Anonymous | Member(isAdmin: bool)

  datatype Category = InfoFlash | SuccessFlash | ErrorFlash
  datatype Flash = Flash(message: string, category: Category)

  datatype Page = IndexPage | LoginPage | PostPage(id: int) | CreatePage | EditPage(id: int)

  /** `ServerError` is the unhandled exception an imaging step of
      `save_image` raises; the transaction is then not committed. */
  datatype Response =
    | Redirect(to: Page, flash: Option<Flash>)
    | Render(page: Page, flash: Option<Flash>)
    | NotFound
    | ServerError

  datatype Blog = Blog(posts: map<int, Post>, files: set<string>)

  /** The post form's fields as submitted. */
  datatype PostForm = PostForm(title: string, content: string, author: string, image: Option<Upload>)

  datatype Reply = Reply(blog: Blog, response: Response)

  const LoginMessage: string := "Please log in to access this page."
  const InvalidImage: Flash := Flash("Invalid image file. Please try again.", ErrorFlash)

  /** Each route's flash for a logged-in user who is not an administrator. */
  const CreateDenied: string := "Only administrators can create posts."
  const EditDenied: string := "Only administrators can edit posts."
  const DeleteDenied: string := "Only administrators can delete posts."
  const ModifyDenied: string := "Only administrators can modify posts."

  predicate IsAdmin(v: Viewer) {
    v == Member(true)
  }

  /** `@login_required` followed by the `is_admin` test: the response that
      turns the request away, or `None` for an administrator. */
  function Gate(v: Viewer, denied: string): (r: Option<Response>)
    ensures r.None? <==> IsAdmin(v)
    ensures v == Anonymous ==> r == Some(Redirect(LoginPage, Some(Flash(LoginMessage, InfoFlash))))
    ensures v == Member(false) ==> r == Some(Redirect(IndexPage, Some(Flash(denied, ErrorFlash))))
  {
    match v
    case Anonymous => Some(Redirect(LoginPage, Some(Flash(LoginMessage, InfoFlash))))
    case Member(admin) =>
      if admin then None else Some(Redirect(IndexPage, Some(Flash(denied, ErrorFlash))))
  }

  /** `create`. `submitted` says the form was posted and validated, `id` is
      the key the database assigns, `stem` the random hex name drawn by
      `save_image` and `now` the clock reading stored as the post date. */
  function Create(b: Blog, v: Viewer, submitted: bool, form: PostForm, id: int, stem: string, now: int): (r: Reply)
    requires id !in b.posts && IsHexStem(stem)
    ensures !IsAdmin(v) || !submitted ==> r.blog == b
    ensures r.blog.posts.Keys <= b.posts.Keys + {id}
    ensures forall k :: k in b.posts ==> k in r.blog.posts && r.blog.posts[k] == b.posts[k]
    ensures id in r.blog.posts <==> r.response == Redirect(IndexPage, Some(Flash("Post created successfully!", SuccessFlash)))
    ensures id in r.blog.posts ==>
              var p := r.blog.posts[id];
              && p.title == form.title && p.content == form.content && p.author == form.author
              && p.posted == now
              && (p.imageFilename.None? <==> !Present(form.image))
              && (p.imageFilename.Some? ==> r.blog.files == b.files + {p.imageFilename.value}
                                            && AllowedFile(p.imageFilename.value))
              && (p.imageFilename.None? ==> r.blog.files == b.files)
    ensures id !in r.blog.posts ==> r.blog == b
    ensures !IsAdmin(v) ==> r.response == Gate(v, CreateDenied).value
    ensures IsAdmin(v) && !submitted ==> r.response == Render(CreatePage, None)
    ensures IsAdmin(v) && submitted ==>
              (id in r.blog.posts <==>
                 !Present(form.image) || (AllowedFile(form.image.value.filename) && form.image.value.processable))
    ensures id in r.blog.posts && Present(form.image) ==>
              r.blog.posts[id].imageFilename == Some(StoredName(stem, form.image.value.filename))
    ensures IsAdmin(v) && submitted && Present(form.image) && !AllowedFile(form.image.value.filename) ==>
              r.response == Render(CreatePage, Some(InvalidImage))
    ensures (IsAdmin(v) && submitted && Present(form.image) && AllowedFile(form.image.value.filename)
             && !form.image.value.processable) ==> r.response == ServerError
  {
    match Gate(v, CreateDenied)
    case Some(denied) => Reply(b, denied)
    case None =>
      if !submitted then Reply(b, Render(CreatePage, None))
      else if Present(form.image) then
        var (outcome, files) := SaveImage(form.image, stem, b.files);
        match outcome
        case Refused => Reply(b, Render(CreatePage, Some(InvalidImage)))
        case SaveFailed => Reply(b, ServerError)
        case Saved(name) =>
          Reply(Blog(b.posts[id := Post(form.title, form.content, form.author, Some(name), now)], files),
                Redirect(IndexPage, Some(Flash("Post created successfully!", SuccessFlash))))
      else
        Reply(Blog(b.posts[id := Post(form.title, form.content, form.author, None, now)], b.files),
              Redirect(IndexPage, Some(Flash("Post created successfully!", SuccessFlash))))
  }

  /** `edit`. With a new image the old file is deleted first, before the new
      upload is checked. */
  function Edit(b: Blog, v: Viewer, id: int, submitted: bool, form: PostForm, stem: string): (r: Reply)
    requires IsHexStem(stem)
    ensures !IsAdmin(v) || id !in b.posts || !submitted ==> r.blog == b
    ensures IsAdmin(v) && id !in b.posts ==> r.response == NotFound
    ensures IsAdmin(v) && id in b.posts && submitted ==> r == SubmitEdit(b, id, form, stem)
    ensures !IsAdmin(v) ==> r.response == Gate(v, EditDenied).value
    ensures IsAdmin(v) && id in b.posts && !submitted ==> r.response == Render(EditPage(id), None)
  {
    match Gate(v, EditDenied)
    case Some(denied) => Reply(b, denied)
    case None =>
      if id !in b.posts then Reply(b, NotFound)
      else if !submitted then Reply(b, Render(EditPage(id), None))
      else SubmitEdit(b, id, form, stem)
  }

  /** The body of `edit` for a validated form on an existing post. */
  function SubmitEdit(b: Blog, id: int, form: PostForm, stem: string): (r: Reply)
    requires id in b.posts && IsHexStem(stem)
    ensures r.blog.posts.Keys == b.posts.Keys
    ensures forall k :: k in b.posts && k != id ==> r.blog.posts[k] == b.posts[k]
    ensures r.response.Redirect? ==>
              var (before, after) := (b.posts[id], r.blog.posts[id]);
              && after == Post(form.title, form.content, form.author, after.imageFilename, before.posted)
              && (!Present(form.image) ==> after.imageFilename == before.imageFilename && r.blog.files == b.files)
    ensures !Present(form.image) ==> r.response == Updated(id)
    ensures Present(form.image) ==> r == ReplaceImage(b, id, form, stem)
  {
    if Present(form.image) then ReplaceImage(b, id, form, stem)
    else
      var p := b.posts[id].(title := form.title, content := form.content, author := form.author);
      Reply(Blog(b.posts[id := p], b.files), Updated(id))
  }

  function Updated(id: int): Response {
    Redirect(PostPage(id), Some(Flash("Post updated successfully!", SuccessFlash)))
  }

  /** `edit` with a new image: the old file goes first; then the new one is
      saved and the post updated, or the request stops with the post as it was. */
  function ReplaceImage(b: Blog, id: int, form: PostForm, stem: string): (r: Reply)
    requires id in b.posts && IsHexStem(stem) && Present(form.image)
    ensures r.blog.posts.Keys == b.posts.Keys
    ensures forall k :: k in b.posts && k != id ==> r.blog.posts[k] == b.posts[k]
    ensures r.response.Redirect? ==>
              var (before, after) := (b.posts[id], r.blog.posts[id]);
              && after == Post(form.title, form.content, form.author, after.imageFilename, before.posted)
              && after.imageFilename.Some?
              && AllowedFile(after.imageFilename.value)
              && r.blog.files == DeleteImage(before, b.files) + {after.imageFilename.value}
    ensures !r.response.Redirect? ==>
              && r.blog.posts == b.posts
              && r.blog.files == DeleteImage(b.posts[id], b.files)
    ensures r.response.Redirect? <==> AllowedFile(form.image.value.filename) && form.image.value.processable
    ensures r.response.Redirect? ==> r.response == Updated(id)
    ensures r.response.Redirect? ==>
              r.blog.posts[id].imageFilename == Some(StoredName(stem, form.image.value.filename))
    ensures !AllowedFile(form.image.value.filename) ==> r.response == Render(EditPage(id), Some(InvalidImage))
    ensures AllowedFile(form.image.value.filename) && !form.image.value.processable ==> r.response == ServerError
  {
    var cleared := DeleteImage(b.posts[id], b.files);
    var (outcome, files) := SaveImage(form.image, stem, cleared);
    ApplySave(b, id, form, cleared, outcome, files)
  }

  /** The part of `edit` after `save_image` returned: a stored name goes into
      the post with the form's fields; otherwise the posts stay as they were
      and the folder keeps only what the earlier deletion left. */
  function ApplySave(b: Blog, id: int, form: PostForm, cleared: set<string>,
                     outcome: SaveOutcome, files: set<string>): (r: Reply)
    requires id in b.posts
    ensures r.blog.posts.Keys == b.posts.Keys
    ensures forall k :: k in b.posts && k != id ==> r.blog.posts[k] == b.posts[k]
    ensures outcome.Saved? ==>
              && r.blog.posts[id] == Post(form.title, form.content, form.author,
                                          Some(outcome.name), b.posts[id].posted)
              && r.blog.files == files
              && r.response == Updated(id)
    ensures outcome == Refused ==> r == Reply(Blog(b.posts, cleared), Render(EditPage(id), Some(InvalidImage)))
    ensures outcome == SaveFailed ==> r == Reply(Blog(b.posts, cleared), ServerError)
  {
    match outcome
    case Refused => Reply(Blog(b.posts, cleared), Render(EditPage(id), Some(InvalidImage)))
    case SaveFailed => Reply(Blog(b.posts, cleared), ServerError)
    case Saved(name) =>
      var p := b.posts[id].(imageFilename := Some(name), title := form.title,
                            content := form.content, author := form.author);
      Reply(Blog(b.posts[id := p], files), Updated(id))
  }

  /** `delete`: the post's file and then the post itself are removed. */
  function Delete(b: Blog, v: Viewer, id: int): (r: Reply)
    ensures !IsAdmin(v) || id !in b.posts ==> r.blog == b
    ensures IsAdmin(v) && id !in b.posts ==> r.response == NotFound
    ensures IsAdmin(v) && id in b.posts ==>
              && r.blog.posts.Keys == b.posts.Keys - {id}
              && (forall k :: k in r.blog.posts ==> r.blog.posts[k] == b.posts[k])
              && r.blog.files == DeleteImage(b.posts[id], b.files)
    ensures !IsAdmin(v) ==> r.response == Gate(v, DeleteDenied).value
    ensures IsAdmin(v) && id in b.posts ==>
              r.response == Redirect(IndexPage, Some(Flash("Post deleted successfully!", SuccessFlash)))
  {
    match Gate(v, DeleteDenied)
    case Some(denied) => Reply(b, denied)
    case None =>
      if id !in b.posts then Reply(b, NotFound)
      else
        Reply(Blog(b.posts - {id}, DeleteImage(b.posts[id], b.files)),
              Redirect(IndexPage, Some(Flash("Post deleted successfully!", SuccessFlash))))
  }

  /** `remove_image`: the post's file is removed and its column set to NULL. */
  function RemoveImage(b: Blog, v: Viewer, id: int): (r: Reply)
    ensures !IsAdmin(v) || id !in b.posts ==> r.blog == b
    ensures IsAdmin(v) && id !in b.posts ==> r.response == NotFound
    ensures r.blog.posts.Keys == b.posts.Keys
    ensures forall k :: k in b.posts && k != id ==> r.blog.posts[k] == b.posts[k]
    ensures IsAdmin(v) && id in b.posts ==>
              && r.blog.posts[id] == b.posts[id].(imageFilename := None)
              && r.blog.files == DeleteImage(b.posts[id], b.files)
              && r.response == Redirect(EditPage(id), Some(Flash("Image removed successfully!", SuccessFlash)))
    ensures !IsAdmin(v) ==> r.response == Gate(v, ModifyDenied).value
  {
    match Gate(v, ModifyDenied)
    case Some(denied) => Reply(b, denied)
    case None =>
      if id !in b.posts then Reply(b, NotFound)
      else
        var post := b.posts[id];
        Reply(Blog(b.posts[id := post.(imageFilename := None)], DeleteImage(post, b.files)),
              Redirect(EditPage(id), Some(Flash("Image removed successfully!", SuccessFlash))))
  }

  // ------------------------------------------------------------ invariant

  /** Every truthy image name refers to a file in the folder, and no two posts
      name the same file. */
  ghost predicate Consistent(b: Blog) {
    && (forall k :: k in b.posts && NamesFile(b.posts[k]) ==> b.posts[k].imageFilename.value in b.files)
    && (forall k, j :: k in b.posts && j in b.posts && k != j && NamesFile(b.posts[k]) && NamesFile(b.posts[j])
          ==> b.posts[k].imageFilename != b.posts[j].imageFilename)
  }

  lemma DeleteKeepsConsistent(b: Blog, v: Viewer, id: int)
    requires Consistent(b)
    ensures Consistent(Delete(b, v, id).blog)
  {
  }

  lemma RemoveImageKeepsConsistent(b: Blog, v: Viewer, id: int)
    requires Consistent(b)
    ensures Consistent(RemoveImage(b, v, id).blog)
  {
  }

  /** A new post keeps the blog consistent, provided the freshly drawn name is
      not already in the folder (a stem collision). */
  lemma CreateKeepsConsistent(b: Blog, v: Viewer, submitted: bool, form: PostForm, id: int, stem: string, now: int)
    requires id !in b.posts && IsHexStem(stem) && Consistent(b)
    requires Present(form.image) && AllowedFile(form.image.value.filename) ==>
               StoredName(stem, form.image.value.filename) !in b.files
    ensures Consistent(Create(b, v, submitted, form, id, stem, now).blog)
  {
  }

  /** An edit that goes through keeps the blog consistent (under the same
      freshness proviso); only a failed image upload can break it. */
  lemma EditKeepsConsistent(b: Blog, v: Viewer, id: int, submitted: bool, form: PostForm, stem: string)
    requires IsHexStem(stem) && Consistent(b)
    requires Present(form.image) && AllowedFile(form.image.value.filename) ==>
               StoredName(stem, form.image.value.filename) !in b.files
    requires !Edit(b, v, id, submitted, form, stem).response.ServerError?
    requires Edit(b, v, id, submitted, form, stem).response != Render(EditPage(id), Some(InvalidImage))
    ensures Consistent(Edit(b, v, id, submitted, form, stem).blog)
  {
  }

  /** The old file is deleted before the new upload is checked, so for any
      post that names a file, a refused upload leaves the post naming a file
      that is gone and the blog inconsistent, whatever state it started in. */
  lemma EditRefusedLeavesDanglingName(b: Blog, id: int, form: PostForm, stem: string)
    requires IsHexStem(stem) && id in b.posts && NamesFile(b.posts[id])
    requires Present(form.image) && !AllowedFile(form.image.value.filename)
    ensures var r := Edit(b, Member(true), id, true, form, stem);
            && r.response == Render(EditPage(id), Some(InvalidImage))
            && r.blog.posts == b.posts
            && b.posts[id].imageFilename.value !in r.blog.files
            && !Consistent(r.blog)
  {
    var r := Edit(b, Member(true), id, true, form, stem);
    assert r == ReplaceImage(b, id, form, stem);
    assert NamesFile(r.blog.posts[id]);
  }

  /** The path a validated form can reach: an allowed name whose imaging
      steps fail stops the request with a server error after the old file has
      already been deleted, leaving the post naming a file that is gone. */
  lemma EditFailedSaveLeavesDanglingName(b: Blog, id: int, form: PostForm, stem: string)
    requires IsHexStem(stem) && id in b.posts && NamesFile(b.posts[id])
    requires Present(form.image) && AllowedFile(form.image.value.filename) && !form.image.value.processable
    ensures var r := Edit(b, Member(true), id, true, form, stem);
            && r.response == ServerError
            && r.blog.posts == b.posts
            && b.posts[id].imageFilename.value !in r.blog.files
            && !Consistent(r.blog)
  {
    var r := Edit(b, Member(true), id, true, form, stem);
    assert r == ReplaceImage(b, id, form, stem);
    assert NamesFile(r.blog.posts[id]);
  }
}

=== FILE: resize.dfy ===
/** The dimension arithmetic of the browser-side `optimizeImage` helper:
    the size an image is drawn at before it is re-encoded. Browser numbers
    are modelled as exact reals. */
module Resize {

  datatype Dims = Dims(width: real, height: real)

  /** Default bounds of the helper. */
  const DefaultMax: real := 1200.0

  /** The helper's choice: a landscape image (strictly wider than high) is
      limited by `maxWidth` only; any other image, squares included, by
      `maxHeight` only. */
  function Fit(d: Dims, maxWidth: real, maxHeight: real): (r: Dims)
    requires d.width >= 0.0 && d.height >= 0.0
    requires maxWidth > 0.0 && maxHeight > 0.0
    ensures r.width * d.height == r.height * d.width
    ensures 0.0 <= r.width <= d.width && 0.0 <= r.height <= d.height
    ensures d.width > d.height && d.width > maxWidth ==> r.width == maxWidth
    ensures d.width <= d.height && d.height > maxHeight ==> r.height == maxHeight
    ensures d.width > d.height && d.width <= maxWidth ==> r == d
    ensures d.width <= d.height && d.height <= maxHeight ==> r == d
  {
    if d.width > d.height then
      if d.width > maxWidth then
        Dims(maxWidth, Scale(d.height, maxWidth, d.width))
      else d
    else
      if d.height > maxHeight then
        Dims(Scale(d.width, maxHeight, d.height), maxHeight)
      else d
  }

  /** `x *= bound / big`: scaling `x` by `bound / big` with `bound < big`
      shrinks it, keeps the proportion `x : big == result : bound`, and brings
      anything no larger than `big` within `bound`. */
  function Scale(x: real, bound: real, big: real): (r: real)
    requires x >= 0.0 && 0.0 < bound < big
    ensures 0.0 <= r <= x
    ensures r * big == bound * x
    ensures x <= big ==> r <= bound
  {
    ScaleFacts(x, bound, big);
    x * (bound / big)
  }

  lemma ScaleFacts(x: real, bound: real, big: real)
    requires x >= 0.0 && 0.0 < bound < big
    ensures 0.0 <= x * (bound / big) <= x
    ensures x * (bound / big) * big == bound * x
    ensures x <= big ==> x * (bound / big) <= bound
  {
    var q := bound / big;
    RatioBelowOne(bound, big);
    assert q * big == bound;
    assert x - x * q == x * (1.0 - q);
    NonNegativeProduct(x, 1.0 - q);
    NonNegativeProduct(x, q);
    assert x * q * big == x * (q * big);
    if x <= big {
      assert big * q - x * q == (big - x) * q;
      NonNegativeProduct(big - x, q);
    }
  }

  /** `bound / big` lies strictly between 0 and 1. */
  lemma RatioBelowOne(bound: real, big: real)
    requires 0.0 < bound < big
    ensures 0.0 < bound / big < 1.0
  {
    var q := bound / big;
    assert q * big == bound;
    var a := 1.0 - q;
    assert a * big == big - q * big;
    assert big - q * big == big - bound;
    PositiveFactor(a, big);
  }

  lemma NonNegativeProduct(a: real, b: real)
    requires a >= 0.0 && b >= 0.0
    ensures a * b >= 0.0
  {
  }

  lemma PositiveFactor(a: real, c: real)
    requires c > 0.0 && a * c > 0.0
    ensures a > 0.0
  {
  }

  /** When both bounds are equal the result fits the square box. */
  lemma FitsSquareBox(d: Dims, bound: real)
    requires d.width >= 0.0 && d.height >= 0.0 && bound > 0.0
    ensures Fit(d, bound, bound).width <= bound && Fit(d, bound, bound).height <= bound
  {
  }

  /** With unequal bounds only one axis is looked at: a landscape image that
      is narrow enough keeps a height above `maxHeight`. */
  lemma UnequalBoundsMayOverflow()
    ensures Fit(Dims(1000.0, 900.0), 1200.0, 800.0) == Dims(1000.0, 900.0)
    ensures Fit(Dims(1000.0, 900.0), 1200.0, 800.0).height > 800.0
  {
  }

  /** The three worked cases with the default bounds. */
  lemma DefaultExamples()
    ensures Fit(Dims(2000.0, 1000.0), DefaultMax, DefaultMax) == Dims(1200.0, 600.0)
    ensures Fit(Dims(1000.0, 2000.0), DefaultMax, DefaultMax) == Dims(600.0, 1200.0)
    ensures Fit(Dims(100.0, 100.0), DefaultMax, DefaultMax) == Dims(100.0, 100.0)
  {
  }
}

=== FILE: text.dfy ===
/** String helpers shared by the browser-side and the server-side models:
    JavaScript white space and `trim`, ASCII case mapping, splitting at a
    separator character (JavaScript `split`) and at its last occurrence
    (Python `rsplit(sep, 1)`). */
module Text {

  import opened Wrappers

  /** The characters JavaScript's `String.prototype.trim` removes and the
      regular-expression class `\s` matches: the WhiteSpace and
      LineTerminator productions of ECMAScript (TAB, VT, FF, SPACE, NBSP,
      ZWNBSP, the other space separators, LF, CR, LS, PS). */
  const WhiteSpace: set<char> := {
    '\t', '\n', '\U{000B}', '\U{000C}', '\r', ' ',
    '\U{00A0}', '\U{1680}', '\U{2000}', '\U{2001}', '\U{2002}', '\U{2003}',
    '\U{2004}', '\U{2005}', '\U{2006}', '\U{2007}', '\U{2008}', '\U{2009}',
    '\U{200A}', '\U{2028}', '\U{2029}', '\U{202F}', '\U{205F}', '\U{3000}',
    '\U{FEFF}'
  }

  predicate IsWs(c: char) {
    c in WhiteSpace
  }

  predicate AllWs(s: string) {
    forall i :: 0 <= i < |s| ==> IsWs(s[i])
  }

  /** `s` with its leading white space removed. */
  function TrimStart(s: string): (r: string)
    ensures |r| <= |s| && r == s[|s| - |r|..]
    ensures AllWs(s[..|s| - |r|])
    ensures r == [] || !IsWs(r[0])
    ensures s != [] && IsWs(s[0]) ==> |r| < |s|
  {
    if s == [] || !IsWs(s[0]) then s
    else
      var r := TrimStart(s[1..]);
      assert s[1..][|s| - |r| - 1..] == s[|s| - |r|..];
      WsPrefixStep(s, |s| - |r|);
      r
  }

  /** A white-space first character followed by a white-space prefix of the
      rest makes a white-space prefix. */
  lemma WsPrefixStep(s: string, k: nat)
    requires 1 <= k <= |s| && IsWs(s[0]) && AllWs(s[1..][..k - 1])
    ensures AllWs(s[..k])
  {
    forall i | 0 <= i < k
      ensures IsWs(s[..k][i])
    {
      if i > 0 {
        assert s[..k][i] == s[1..][..k - 1][i - 1];
      }
    }
  }

  /** A text ending in a non-white-space character keeps that character
      as the last one after its leading white space is removed. */
  lemma {:induction false} TrimStartKeepsLast(s: string)
    requires s != [] && !IsWs(s[|s| - 1])
    ensures TrimStart(s) != [] && TrimStart(s)[|TrimStart(s)| - 1] == s[|s| - 1]
  {
    if IsWs(s[0]) {
      TrimStartKeepsLast(s[1..]);
    }
  }

  /** `s` with its trailing white space removed. */
  function TrimEnd(s: string): (r: string)
    ensures |r| <= |s| && r == s[..|r|]
    ensures AllWs(s[|r|..])
    ensures r == [] || !IsWs(r[|r| - 1])
  {
    if s == [] || !IsWs(s[|s| - 1]) then s else TrimEnd(s[..|s| - 1])
  }

  /** The text is what `TrimEnd` keeps followed by the white space it drops. */
  lemma TrimEndSplit(s: string)
    ensures var t := TrimEnd(s); s == t + s[|t|..] && AllWs(s[|t|..])
  {
    var t := TrimEnd(s);
    assert s == s[..|t|] + s[|t|..];
  }

  /** A concatenation is all white space iff both halves are. */
  lemma AllWsAppend(a: string, b: string)
    ensures AllWs(a + b) <==> AllWs(a) && AllWs(b)
  {
    assert forall i :: 0 <= i < |a| ==> (a + b)[i] == a[i];
    assert forall i :: 0 <= i < |b| ==> (a + b)[|a| + i] == b[i];
  }

  /** JavaScript `s.trim()`. */
  function Trim(s: string): (r: string)
    ensures r == [] <==> AllWs(s)
    ensures r != [] ==> !IsWs(r[0]) && !IsWs(r[|r| - 1])
  {
    var r := TrimEnd(TrimStart(s));
    TrimEnds(s);
    r
  }

  /** Removing leading and then trailing white space leaves nothing exactly
      when the text is all white space, and otherwise non-white-space ends. */
  lemma TrimEnds(s: string)
    ensures var r := TrimEnd(TrimStart(s));
            && (r == [] <==> AllWs(s))
            && (r != [] ==> !IsWs(r[0]) && !IsWs(r[|r| - 1]))
  {
    var t := TrimStart(s);
    AllWsIffTrimStartEmpty(s);
    assert t[0..] == t;
  }

  /** A text is all white space exactly when removing its leading white
      space leaves nothing. */
  lemma AllWsIffTrimStartEmpty(s: string)
    ensures AllWs(s) <==> TrimStart(s) == []
  {
    var r := TrimStart(s);
    if r == [] {
      assert s[..|s|] == s;
    } else {
      assert r[0] == s[|s| - |r|];
      assert !IsWs(s[|s| - |r|]);
    }
  }

  // ---------------------------------------------------------------- case

  function LowerChar(c: char): char {
    if 'A' <= c <= 'Z' then (c as int + 32) as char else c
  }

  function UpperChar(c: char): char {
    if 'a' <= c <= 'z' then (c as int - 32) as char else c
  }

  /** Python `str.lower()` restricted to ASCII letters. */
  function ToLower(s: string): (r: string)
    ensures |r| == |s|
    ensures forall i :: 0 <= i < |s| ==> r[i] == LowerChar(s[i])
  {
    seq(|s|, i requires 0 <= i < |s| => LowerChar(s[i]))
  }

  /** JavaScript `String.prototype.toUpperCase()` restricted to ASCII letters. */
  function ToUpper(s: string): (r: string)
    ensures |r| == |s|
    ensures forall i :: 0 <= i < |s| ==> r[i] == UpperChar(s[i])
  {
    seq(|s|, i requires 0 <= i < |s| => UpperChar(s[i]))
  }

  /** A string without upper-case ASCII letters is its own lower case. */
  lemma ToLowerOfLower(s: string)
    requires forall i :: 0 <= i < |s| ==> !('A' <= s[i] <= 'Z')
    ensures ToLower(s) == s
  {
    assert forall i :: 0 <= i < |s| ==> ToLower(s)[i] == s[i];
  }

  /** Lower-casing twice is lower-casing once. */
  lemma ToLowerIdempotent(s: string)
    ensures ToLower(ToLower(s)) == ToLower(s)
  {
  }

  /** Lower-casing keeps every separator character that is not a letter where it was. */
  lemma ToLowerKeepsNonLetter(s: string, c: char)
    requires !('A' <= c <= 'Z') && !('a' <= c <= 'z')
    ensures c in ToLower(s) <==> c in s
  {
    if c in s {
      var i :| 0 <= i < |s| && s[i] == c;
      assert ToLower(s)[i] == c;
    }
    if c in ToLower(s) {
      var i :| 0 <= i < |s| && ToLower(s)[i] == c;
      assert s[i] == c;
    }
  }

  // ------------------------------------------------------------ searching

  /** Position of the first `c` in `s`. */
  function IndexOf(s: string, c: char): (i: nat)
    requires c in s
    ensures i < |s| && s[i] == c && c !in s[..i]
  {
    if s[0] == c then 0
    else
      var j := IndexOf(s[1..], c);
      assert s[1..][..j] == s[1..j + 1];
      assert s[..j + 1] == [s[0]] + s[1..j + 1];
      j + 1
  }

  /** Position of the last `c` in `s`. */
  function LastIndexOf(s: string, c: char): (i: nat)
    requires c in s
    ensures i < |s| && s[i] == c && c !in s[i + 1..]
  {
    if s[|s| - 1] == c then |s| - 1
    else
      var j := LastIndexOf(s[..|s| - 1], c);
      assert s[j + 1..] == s[..|s| - 1][j + 1..] + [s[|s| - 1]];
      j
  }

  // ------------------------------------------------------------ splitting

  /** JavaScript `s.split(sep)` for a one-character separator: the pieces
      between consecutive separators, in order. */
  function Split(s: string, sep: char): (parts: seq<string>)
    ensures |parts| >= 1
    ensures sep in s <==> |parts| >= 2
    ensures forall k :: 0 <= k < |parts| ==> sep !in parts[k]
    decreases |s|
  {
    if sep !in s then [s]
    else
      var i := IndexOf(s, sep);
      [s[..i]] + Split(s[i + 1..], sep)
  }

  /** The inverse of `Split`: the pieces glued back with the separator. */
  function Join(parts: seq<string>, sep: char): string
    requires |parts| >= 1
  {
    if |parts| == 1 then parts[0] else parts[0] + [sep] + Join(parts[1..], sep)
  }

  /** Splitting loses nothing: joining the pieces gives back the string. */
  lemma {:induction false} JoinSplit(s: string, sep: char)
    ensures Join(Split(s, sep), sep) == s
    decreases |s|
  {
    if sep in s {
      var i := IndexOf(s, sep);
      JoinSplit(s[i + 1..], sep);
      assert s == s[..i] + [sep] + s[i + 1..];
    }
  }

  /** The first piece is everything before the first separator, and the
      remaining pieces are those of the text after it. */
  lemma SplitAtFirst(head: string, tail: string, sep: char)
    requires sep !in head
    ensures Split(head + [sep] + tail, sep) == [head] + Split(tail, sep)
  {
    var s := head + [sep] + tail;
    assert s[|head|] == sep;
    var i := IndexOf(s, sep);
    assert forall j :: 0 <= j < |head| ==> s[j] == head[j];
    assert i == |head|;
    assert s[..i] == head;
    assert s[i + 1..] == tail;
  }

  /** Python `s.rsplit(sep, 1)`: `None` when `sep` does not occur (the list
      has one element), otherwise the text before and after the last `sep`. */
  function SplitAtLast(s: string, sep: char): (r: Option<(string, string)>)
    ensures r.None? <==> sep !in s
    ensures r.Some? ==> s == r.value.0 + [sep] + r.value.1 && sep !in r.value.1
  {
    if sep !in s then None
    else
      var i := LastIndexOf(s, sep);
      assert s == s[..i] + [sep] + s[i + 1..];
      Some((s[..i], s[i + 1..]))
  }

  /** The decomposition at the last separator is unique: any way of writing
      `s` as `front + sep + back` with a separator-free `back` is the one
      `SplitAtLast` finds. */
  lemma SplitAtLastUnique(front: string, back: string, sep: char)
    requires sep !in back
    ensures SplitAtLast(front + [sep] + back, sep) == Some((front, back))
  {
    var s := front + [sep] + back;
    assert s[|front|] == sep;
    var i := LastIndexOf(s, sep);
    assert forall j :: |front| < j < |s| ==> s[j] == back[j - |front| - 1];
    assert i == |front|;
    assert s[..i] == front;
    assert s[i + 1..] == back;
  }
}

=== FILE: upload_gate.dfy ===
/** The browser-side image picker of the post form: the `change` handler that
    accepts or rejects the chosen file, the preview it builds for an accepted
    file, and the drop target that forwards dropped files to the same handler.
    The preview is built in a `FileReader` callback in the browser; here the
    callback's effect is applied at once. */
module UploadGate {

  import opened Wrappers
  import opened Text

  /** The 16 MiB ceiling the browser applies, inclusive. */
  const MaxUploadBytes: nat := 16 * 1024 * 1024

  /** The MIME types the picker accepts, in the order the handler lists them. */
  const AllowedTypes: seq<string> := ["image/jpeg", "image/jpg", "image/png", "image/gif", "image/webp"]

  const TypeMessage: string := "Please select a valid image file (JPG, PNG, GIF, WebP)."
  const SizeMessage: string := "File size must be less than 16MB."
  const SelectedMessage: string := "Image selected successfully!"

  /** A file as the browser reports it: `name`, `size` in bytes and `type`. */
  datatype SelectedFile = SelectedFile(name: string, size: nat, mimeType: string)

  datatype Rejection = UnsupportedType | TooLarge
  datatype Verdict = Accepted | Rejected(reason: Rejection)

  /** Severity of a toast shown by the page's notification helper. */
  datatype Level = Info | Success | Warning | Error
  datatype Notice = Notice(message: string, level: Level)

  /** What the preview box shows for an accepted file (the size is kept in
      bytes; its two-decimal megabyte rendering is not modelled). */
  datatype Preview = Preview(fileName: string, sizeBytes: nat, typeLabel: string)

  /** One file input with its preview box: the files the input holds and the
      preview currently on screen, if any. */
  datatype Widget = Widget(files: seq<SelectedFile>, preview: Option<Preview>)

  /** The widget after an event, and the toast the event raised, if any. */
  datatype Reaction = Reaction(widget: Widget, notice: Option<Notice>)

  /** The handler's two checks, type first and size second. */
  function Check(f: SelectedFile): (v: Verdict)
    ensures f.mimeType !in AllowedTypes ==> v == Rejected(UnsupportedType)
    ensures f.mimeType in AllowedTypes ==> (v == Accepted <==> f.size <= MaxUploadBytes)
    ensures v == Rejected(TooLarge) <==> f.mimeType in AllowedTypes && f.size > MaxUploadBytes
  {
    if f.mimeType !in AllowedTypes then Rejected(UnsupportedType)
    else if f.size > MaxUploadBytes then Rejected(TooLarge)
    else Accepted
  }

  /** The type check wins over the size check: an unsupported type is
      reported as such whatever its size. */
  lemma TypeCheckedBeforeSize(f: SelectedFile, size: nat)
    requires f.mimeType !in AllowedTypes
    ensures Check(f.(size := size)) == Rejected(UnsupportedType)
  {
  }

  /** The ceiling is inclusive: exactly 16 MiB passes, one byte more fails. */
  lemma SizeBoundary(name: string, mimeType: string)
    requires mimeType in AllowedTypes
    ensures Check(SelectedFile(name, 16 * 1024 * 1024, mimeType)) == Accepted
    ensures Check(SelectedFile(name, 16 * 1024 * 1024 + 1, mimeType)) == Rejected(TooLarge)
  {
  }

  /** Shrinking an accepted file keeps it accepted; the name never matters. */
  lemma AcceptedDownwardClosed(f: SelectedFile, size: nat, name: string)
    requires Check(f) == Accepted && size <= f.size
    ensures Check(SelectedFile(name, size, f.mimeType)) == Accepted
  {
  }

  /** The label `type.split('/')[1].toUpperCase()`; `None` stands for the
      `TypeError` the browser raises when the type has no '/'. */
  function TypeLabel(mimeType: string): (r: Option<string>)
    ensures r.Some? <==> '/' in mimeType
  {
    var parts := Split(mimeType, '/');
    if |parts| < 2 then None else Some(ToUpper(parts[1]))
  }

  /** For a type `top/sub` the label is `sub` in upper case. */
  lemma TypeLabelOfSubtype(top: string, sub: string)
    requires '/' !in top && '/' !in sub
    ensures TypeLabel(top + "/" + sub) == Some(ToUpper(sub))
  {
    SplitAtFirst(top, sub, '/');
    assert top + "/" + sub == top + ['/'] + sub;
  }

  /** Every allowed type is `image/<sub>`, so an accepted file always has a label. */
  lemma AllowedTypeShape(t: string)
    requires t in AllowedTypes
    ensures |t| > 6 && t[..6] == "image/" && '/' !in t[6..]
  {
  }

  /** The label an accepted file gets, e.g. `WEBP` for `image/webp`. */
  lemma AcceptedTypeLabel(f: SelectedFile)
    requires Check(f) == Accepted
    ensures TypeLabel(f.mimeType) == Some(ToUpper(f.mimeType[6..]))
  {
    AllowedTypeShape(f.mimeType);
    TypeLabelOfSubtype("image", f.mimeType[6..]);
    assert f.mimeType == "image" + "/" + f.mimeType[6..];
  }

  lemma WebpLabel()
    ensures TypeLabel("image/webp") == Some("WEBP")
  {
    TypeLabelOfSubtype("image", "webp");
    assert "image" + "/" + "webp" == "image/webp";
    UpperWebp();
  }

  lemma UpperWebp()
    ensures ToUpper("webp") == "WEBP"
  {
    var u := ToUpper("webp");
    assert u[0] == 'W' && u[1] == 'E' && u[2] == 'B' && u[3] == 'P';
  }

  /** The `change` handler: nothing happens without a file; otherwise only the
      first file is examined. A rejected file empties the input and raises an
      error toast; an accepted one gets a preview and a success toast. */
  function OnChange(w: Widget): (r: Reaction)
    ensures |w.files| == 0 ==> r == Reaction(w, None)
    ensures |w.files| > 0 && Check(w.files[0]).Rejected? ==> r.widget == w.(files := [])
    ensures |w.files| > 0 && Check(w.files[0]) == Rejected(UnsupportedType) ==>
              r.notice == Some(Notice(TypeMessage, Error))
    ensures |w.files| > 0 && Check(w.files[0]) == Rejected(TooLarge) ==>
              r.notice == Some(Notice(SizeMessage, Error))
    ensures |w.files| > 0 && Check(w.files[0]) == Accepted ==>
              && r.widget.files == w.files
              && r.widget.preview == Some(Preview(w.files[0].name, w.files[0].size,
                                                  ToUpper(w.files[0].mimeType[6..])))
              && r.notice == Some(Notice(SelectedMessage, Success))
  {
    if |w.files| == 0 then Reaction(w, None)
    else
      var f := w.files[0];
      match Check(f)
      case Rejected(UnsupportedType) => Reaction(w.(files := []), Some(Notice(TypeMessage, Error)))
      case Rejected(TooLarge) => Reaction(w.(files := []), Some(Notice(SizeMessage, Error)))
      case Accepted =>
        AllowedTypeShape(f.mimeType);
        AcceptedTypeLabel(f);
        Reaction(w.(preview := Some(Preview(f.name, f.size, TypeLabel(f.mimeType).value))),
                 Some(Notice(SelectedMessage, Success)))
  }

  /** The `drop` handler: an empty drop does nothing; otherwise the dropped
      files replace the input's files and the `change` handler runs. */
  function OnDrop(w: Widget, dropped: seq<SelectedFile>): (r: Reaction)
    ensures |dropped| == 0 ==> r == Reaction(w, None)
    ensures |dropped| > 0 && Check(dropped[0]).Rejected? ==> r.widget == w.(files := [])
    ensures |dropped| > 0 && Check(dropped[0]) == Rejected(UnsupportedType) ==>
              r.notice == Some(Notice(TypeMessage, Error))
    ensures |dropped| > 0 && Check(dropped[0]) == Rejected(TooLarge) ==>
              r.notice == Some(Notice(SizeMessage, Error))
    ensures |dropped| > 0 && Check(dropped[0]) == Accepted ==>
              && r.widget.files == dropped
              && r.widget.preview == Some(Preview(dropped[0].name, dropped[0].size,
                                                  ToUpper(dropped[0].mimeType[6..])))
              && r.notice == Some(Notice(SelectedMessage, Success))
    ensures |dropped| > 0 ==> r == OnChange(w.(files := dropped))
  {
    if |dropped| == 0 then Reaction(w, None) else OnChange(w.(files := dropped))
  }

  /** Only the first of several files decides the outcome: the preview and the
      toast are those the first file alone would produce. */
  lemma OnlyFirstFileMatters(w: Widget, first: SelectedFile, rest: seq<SelectedFile>)
    ensures OnDrop(w, [first] + rest).widget.preview == OnDrop(w, [first]).widget.preview
    ensures OnDrop(w, [first] + rest).notice == OnDrop(w, [first]).notice
  {
  }

  /** A rejected file leaves the preview of an earlier accepted file on
      screen: the widget can show a preview while its input is empty. */
  lemma RejectionKeepsEarlierPreview(w: Widget, bad: SelectedFile)
    requires w.preview.Some? && Check(bad).Rejected?
    ensures OnDrop(w, [bad]).widget.files == []
    ensures OnDrop(w, [bad]).widget.preview == w.preview
  {
  }
}

=== FILE: upload_names.dfy ===
/** Server-side handling of an uploaded image's name: the extension check
    applied to the client's filename and the name the image is stored under
    in the upload folder. */
module UploadNames {

  import opened Wrappers
  import opened Text

  /** The upload folder's allowed extensions (the `ALLOWED_EXTENSIONS` setting). */
  const AllowedExtensions: set<string> := {"png", "jpg", "jpeg", "gif", "webp"}

  /** `allowed_file`: the name has a '.', and the text after the LAST '.',
      lower-cased, is an allowed extension. Equivalently, some position holds
      a '.' with no '.' after it and an allowed extension after it. */
  function AllowedFile(filename: string): (r: bool)
    ensures r <==> exists k :: LastSegmentAllowed(filename, k)
    ensures r ==> '.' in filename
  {
    var r := '.' in filename && ToLower(SplitAtLast(filename, '.').value.1) in AllowedExtensions;
    AllowedFileByLastDot(filename);
    r
  }

  /** Position `k` holds the last '.' of the name and the text after it,
      lower-cased, is an allowed extension. */
  predicate LastSegmentAllowed(filename: string, k: int) {
    && 0 <= k < |filename| && filename[k] == '.'
    && '.' !in filename[k + 1..] && ToLower(filename[k + 1..]) in AllowedExtensions
  }

  lemma AllowedFileByLastDot(filename: string)
    ensures ('.' in filename && ToLower(SplitAtLast(filename, '.').value.1) in AllowedExtensions)
            <==> exists k :: LastSegmentAllowed(filename, k)
  {
    if '.' in filename {
      var (front, back) := SplitAtLast(filename, '.').value;
      assert filename[|front|] == '.' && filename[|front| + 1..] == back;
      if ToLower(back) in AllowedExtensions {
        assert LastSegmentAllowed(filename, |front|);
      }
      forall k | LastSegmentAllowed(filename, k)
        ensures ToLower(back) in AllowedExtensions
      {
        assert filename == filename[..k] + ['.'] + filename[k + 1..];
        SplitAtLastUnique(filename[..k], filename[k + 1..], '.');
      }
    } else {
      forall k | 0 <= k < |filename|
        ensures !LastSegmentAllowed(filename, k)
      {
        assert filename[k] in filename;
      }
    }
  }

  /** A name without a '.' is refused, whatever it looks like. */
  lemma NoDotRefused(filename: string)
    requires '.' !in filename
    ensures !AllowedFile(filename)
  {
  }

  /** Exact characterisation: for any `stem` and dot-free `ext`, the name
      `stem.ext` is allowed iff `ext` lower-cased is an allowed extension;
      whatever `stem` holds, dots included, plays no part. */
  lemma AllowedFileIff(stem: string, ext: string)
    requires '.' !in ext
    ensures AllowedFile(stem + "." + ext) <==> ToLower(ext) in AllowedExtensions
  {
    assert stem + "." + ext == stem + ['.'] + ext;
    SplitAtLastUnique(stem, ext, '.');
  }

  /** Every allowed extension starts with 'p', 'j', 'g' or 'w', so a name
      starting with any other character is not one. */
  lemma NotAnExtension(ext: string)
    requires ext != [] && ext[0] !in "pjgw"
    ensures ext !in AllowedExtensions
  {
  }

  lemma LowerPng()
    ensures ToLower("PNG") == "png"
  {
    var l := ToLower("PNG");
    assert l[0] == 'p' && l[1] == 'n' && l[2] == 'g';
  }

  /** Only the last segment counts: an image extension followed by another is refused. */
  lemma InnerExtensionIgnored()
    ensures !AllowedFile("a.png.exe")
  {
    AllowedFileIff("a.png", "exe");
    assert "a.png" + "." + "exe" == "a.png.exe";
    ToLowerOfLower("exe");
    NotAnExtension("exe");
  }

  /** A name ending in '.' has an empty extension and is refused. */
  lemma TrailingDotRefused()
    ensures !AllowedFile("photo.")
  {
    AllowedFileIff("photo", "");
    assert "photo" + "." + "" == "photo.";
  }

  /** The extension is compared in lower case, after the last '.'. */
  lemma UpperCaseLastExtensionAllowed()
    ensures AllowedFile("a.exe.PNG")
  {
    AllowedFileIff("a.exe", "PNG");
    assert "a.exe" + "." + "PNG" == "a.exe.PNG";
    LowerPng();
  }

  /** A non-image extension is refused. */
  lemma TextFileRefused()
    ensures !AllowedFile("notes.txt")
  {
    AllowedFileIff("notes", "txt");
    assert "notes" + "." + "txt" == "notes.txt";
    ToLowerOfLower("txt");
    NotAnExtension("txt");
  }

  // ------------------------------------------------------------ save_image

  /** An uploaded file as the request carries it: the client's filename and
      whether the imaging steps of `save_image` all succeed on its bytes --
      the imaging library opens them, shrinks the image, converts an `RGBA`
      or `P` image to `RGB`, and writes the result as JPEG. A readable image
      in a mode the JPEG writer refuses (`LA`, a grey PNG with alpha, say)
      fails at the last step. */
  datatype Upload = Upload(filename: string, processable: bool)

  /** A file field's truth value: absent, or present with an empty filename
      (no file chosen), is false. */
  predicate Present(u: Option<Upload>) {
    u.Some? && u.value.filename != []
  }

  /** The outcome of `save_image`: the stored name, `None` for a refused
      file, or the exception an imaging step raises. */
  datatype SaveOutcome = Saved(name: string) | Refused | SaveFailed

  /** `uuid4().hex`: 32 lower-case hexadecimal digits. */
  predicate IsHexStem(stem: string) {
    |stem| == 32 && forall i :: 0 <= i < |stem| ==> stem[i] in "0123456789abcdef"
  }

  /** The name an accepted upload is stored under: the fresh stem, a '.',
      and the client's extension lower-cased. */
  function StoredName(stem: string, filename: string): (r: string)
    requires '.' in filename
    ensures var ext := SplitAtLast(filename, '.').value.1;
            && |r| == |stem| + 1 + |ext|
            && r[..|stem|] == stem
            && ('.' !in stem ==> SplitAtLast(r, '.') == Some((stem, ToLower(ext))))
  {
    var ext := SplitAtLast(filename, '.').value.1;
    var r := stem + "." + ToLower(ext);
    ToLowerKeepsNonLetter(ext, '.');
    SplitAtLastUnique(stem, ToLower(ext), '.');
    assert r == stem + ['.'] + ToLower(ext);
    r
  }

  /** `save_image`: `files` is the set of names in the upload folder and
      `stem` the random hex string the call draws. */
  function SaveImage(u: Option<Upload>, stem: string, files: set<string>): (r: (SaveOutcome, set<string>))
    requires IsHexStem(stem)
    ensures !Present(u) || !AllowedFile(u.value.filename) <==> r.0 == Refused
    ensures r.0.Saved? <==> Present(u) && AllowedFile(u.value.filename) && u.value.processable
    ensures r.0.Saved? ==> r.0.name == StoredName(stem, u.value.filename)
    ensures r.0.Saved? ==> r.1 == files + {r.0.name} && AllowedFile(r.0.name)
    ensures !r.0.Saved? ==> r.1 == files
  {
    if Present(u) && AllowedFile(u.value.filename) then
      if u.value.processable then
        var name := StoredName(stem, u.value.filename);
        StoredNameShape(stem, u.value.filename);
        (Saved(name), files + {name})
      else (SaveFailed, files)
    else (Refused, files)
  }

  /** The stored name has exactly one '.', after the hex stem, and splits back
      into that stem and the lower-cased extension, which is allowed. */
  lemma StoredNameShape(stem: string, filename: string)
    requires IsHexStem(stem) && AllowedFile(filename)
    ensures var ext := SplitAtLast(filename, '.').value.1;
            && SplitAtLast(StoredName(stem, filename), '.') == Some((stem, ToLower(ext)))
            && '.' !in stem && '.' !in ToLower(ext)
            && AllowedFile(StoredName(stem, filename))
  {
    var ext := SplitAtLast(filename, '.').value.1;
    var name := StoredName(stem, filename);
    ToLowerKeepsNonLetter(ext, '.');
    assert '.' !in stem by {
      assert forall i :: 0 <= i < |stem| ==> stem[i] != '.';
    }
    assert SplitAtLast(name, '.') == Some((stem, ToLower(ext)));
    ToLowerIdempotent(ext);
    assert ToLower(SplitAtLast(name, '.').value.1) == ToLower(ext);
  }

  /** A missing or refused upload leaves the folder as it was. */
  lemma SaveRefusedStoresNothing(u: Option<Upload>, stem: string, files: set<string>)
    requires IsHexStem(stem) && !(Present(u) && AllowedFile(u.value.filename))
    ensures SaveImage(u, stem, files) == (Refused, files)
  {
  }
}

=== FILE: wrappers.dfy ===
/** The optional-value datatype shared by the modules of this project: Python's
    `None`, JavaScript's `undefined` and an absent form field all become `None`. */
module Wrappers {

  datatype Option<+T> = None | Some(value: T)
}
